=== FILE: README.md ===
# mockemon relay and mock builder, modelled in Dafny

This project models two parts of mockemon.

The first is the mock-store relay built by `configureMockServer`. A test process uses its client half to register fixtures with a relay server, by URL. The server keeps them in one insertion-ordered store. It answers intercepted calls to the real API from that store.

- The server half (`server()`) owns the store. It offers two operations:
  - `resolveRealApiRequest` cuts the real API's base path off the URL, derives a key from the rest and looks the key up.
  - `resolveMockApiRequest` routes on the URL. A URL with the get-all prefix gets a snapshot of the store. A URL with the set prefix has its remainder decoded into a payload, and the payload's value is stored under the payload's key. Any other URL changes nothing and gets nothing back.
- The client half (`client()`) builds the two requests. `set(payload)` is a POST to `address + mockApiUrl + "/set" + encode(payload)`. `getAll()` is a GET to `address + mockApiUrl + "/get-all"`.
- `encode` is `encodeURIComponent(JSON.stringify(payload))` and `decode` is `JSON.parse(decodeURIComponent(text))`. Percent-encoding (section 2.1 of RFC 3986, with UTF-8 as in RFC 3629, over the character set of ECMAScript's `encodeURIComponent`) is modelled concretely. Its round trip is proved. `JSON.stringify` and `JSON.parse` (RFC 8259) are a pair of host functions. Where a property needs it, they are assumed to round-trip on well-formed values (`Json.RoundTrips`). Well-formed values are a subset of those `JSON.parse` gives back unchanged. Member names are unique. Array-index names (up to 2^32 − 2) come first, in ascending order, as a JavaScript object lists them. Numbers are safe integers.

The second part is the override rule of `createMockBuilder`. `buildMock` calls the generator once and applies a function override to the faker. When both values are objects it shallow-merges them with `Object.assign`. Otherwise it returns the override if an argument was passed at all, even `undefined`, and the generated value if none was.

Files and modules:

- `wrappers.dfy` (`Wrappers`): `Option` and `Result`.
- `insertion_map.dfy` (`InsertionMap`): an insertion-ordered string-keyed dictionary, as a sequence of entries. `Put` is `Map.prototype.set`. `PutAll` is a series of `Put`s: a session of registrations, and also `Object.assign`.
- `json.dfy` (`Json`): JSON values and the host's `JSON.stringify`/`JSON.parse` pair.
- `percent_encoding.dfy` (`PercentEncoding`): `encodeURIComponent` and `decodeURIComponent`.
- `mock_server.dfy` (`MockServer`): the relay. The class `Server` holds the store as a field that `ResolveMockApiRequest` updates in place. `ResolveReal` and `ResolveMock` are the same two operations on a store value, and the lemmas are stated about them. The client's request builders are here too, with the client-to-server round-trip lemmas.
- `mock_builder.dfy` (`MockBuilder`): `buildMock`. `configureMockBuilder` and `createMockBuilder` only capture `config` and `build`, so those are the first two parameters of `BuildMock`.
- `server_http_test.dfy` (`ServerHttpTest`): the scenario of the HTTP test, driven through the `Server` class.

The caller-supplied `getKey` and `getValue` are function parameters. The transport is the assumption that the relay receives the client's URL with the client's `address` cut off (`MockServer.ServerUrl`).

Behaviour of the code worth noting:

- The code does not check the real-API prefix in `resolveRealApiRequest`. It slices by length, and `Slice` models `String.prototype.slice` exactly.
- A registration and an unmatched control URL both return `undefined` (`MockReply.Nothing`).
- The builder's merge is `Object.assign`, so it is shallow. An override property replaces the generated one whole (`MockBuilder.MergeIsShallow`), even where the generated value is a nested object.
- `server()` takes no arguments. `getValue` is an argument of `resolveMockApiRequest`, as in the source. The HTTP test instead passes `getValue` to `server()`, and the scenario uses the source signature.

## Model

| member | source | states |
|---|---|---|
| `InsertionMap.Put` | src/server.ts:104 | `store.set`: afterwards the key maps to the new value and every other key keeps its value. An existing key keeps its position; a new key is appended after all the others. |
| `InsertionMap.PutNewKey` | src/server.ts:104 | Setting a key that is not yet present appends exactly that entry at the end. |
| `InsertionMap.PutKeepsUniqueKeys` | src/server.ts:104 | Setting never creates a second entry for a key. |
| `InsertionMap.PutAllKeepsUniqueKeys` | src/server.ts:104 | A series of sets never creates a second entry for a key. |
| `InsertionMap.Get` | src/server.ts:89 | `store.get`. It has no contract of its own; `GetFound`, `Put` and `PutAllGet` state its meaning. |
| `InsertionMap.GetFound` | src/server.ts:89 | `store.get` finds a value exactly for the keys present, and that value is stored under the key. |
| `InsertionMap.LatestFound` | src/server.ts:104 | The last write of a key in a series exists exactly for the keys written. |
| `InsertionMap.PutAllGet` | src/server.ts:104 | After a series of sets, each key written holds the value of its last write (last write wins). Keys not written keep their value. |
| `InsertionMap.PutAllKeys` | src/server.ts:97 | After a series of sets the keys are the old keys in place, then each new key once, in first-write order. This is the order the snapshot lists. |
| `InsertionMap.LatestOfUniqueKeys` | src/builder.ts:38 | In an object whose property names are unique, the last entry for a name is its only entry. |
| `PercentEncoding.Utf8Encode` | src/server.ts:116 | A code point becomes one ASCII octet, or a lead octet announcing 2 to 4 octets followed by continuation octets. |
| `PercentEncoding.Utf8RoundTrip` | src/server.ts:116 | Decoding the UTF-8 octets of any code point gives that code point back. |
| `PercentEncoding.PercentEncode` | src/server.ts:116 | `encodeURIComponent` output holds only unreserved characters and `%`. |
| `PercentEncoding.PercentEncodeWellEscaped` | src/server.ts:116 | Every `%` that `encodeURIComponent` writes is followed by two hexadecimal digits. |
| `PercentEncoding.UnreservedUnchanged` | src/server.ts:116 | `encodeURIComponent` leaves text made of unreserved characters unchanged. |
| `PercentEncoding.PercentDecode` | src/server.ts:49 | `decodeURIComponent`, with `None` for its URIError. It has no contract of its own; its meaning comes from `PercentRoundTrip`, `DecodeWithoutEscapes`, `LoneContinuationFails`, `OverlongLeadFails` and `TrailingPercentFails`. |
| `PercentEncoding.DecodeEscapeOfEncodedChar` | src/server.ts:49 | The escapes written for one character decode to that character and consume exactly those escapes. |
| `PercentEncoding.DecodeEncodedChar` | src/server.ts:49 | Decoding one encoded character in front of any text yields that character in front of the text's decoding. |
| `PercentEncoding.PercentRoundTrip` | src/server.ts:116 | `decodeURIComponent(encodeURIComponent(s)) === s` for every string. |
| `PercentEncoding.DecodeWithoutEscapes` | src/server.ts:49 | Text without `%` decodes to itself. |
| `PercentEncoding.LoneContinuationFails` | src/server.ts:49 | An escaped continuation octet where a character should start is a URIError, whatever follows it. |
| `PercentEncoding.OverlongLeadFails` | src/server.ts:49 | An escaped `C0` or `C1` lead octet, which can only start an overlong form, is a URIError, whatever follows it. |
| `PercentEncoding.TrailingPercentFails` | src/server.ts:49 | A `%` at the end of the text is a URIError, whatever precedes it. |
| `PercentEncoding.BrokenEscapesFail` | src/server.ts:49 | Examples: `%`, `%4`, `%80` and `%C0%80` are each a URIError. |
| `Json.LoneIndexNameKept` | src/server.ts:49 | An object whose only member has an index name is well formed: `JSON.parse` keeps it. |
| `Json.LargeDigitNameKept` | src/server.ts:49 | A digit name above the largest array index may follow other names: `JSON.parse` keeps its position. |
| `Json.AscendingIndexNamesKept` | src/server.ts:49 | Index names first, ascending, then other names is a well-formed order. |
| `Json.IndexNameAfterOtherRejected` | src/server.ts:49 | An index name after another name is not well formed: `JSON.parse` would move it to the front. |
| `Json.DescendingIndexNamesRejected` | src/server.ts:49 | Index names in descending order are not well formed: `JSON.parse` would sort them. |
| `MockServer.StartsWith` | src/server.ts:96 | `String.prototype.startsWith`. It has no contract of its own; `SetAndGetAllAreDisjoint` and `ResolveMock` state its meaning as the relay's routing test. |
| `MockServer.Slice` | src/server.ts:87 | `String.prototype.slice(start)`: empty past the end, with no check of what is cut off. It has no contract of its own; `ResolveRealStripsBasePath` states its meaning. |
| `MockServer.SetUrl` | src/server.ts:38 | The set prefix, `mockApiUrl + "/set"`. Its meaning as a route comes from `SetAndGetAllAreDisjoint`, `ResolveMock` and `ClientSet`. |
| `MockServer.GetAllUrl` | src/server.ts:39 | The get-all prefix, `mockApiUrl + "/get-all"`. Its meaning as a route comes from `SetAndGetAllAreDisjoint`, `ResolveMock` and `ClientGetAll`. |
| `MockServer.Decode` | src/server.ts:48-50 | The server's `decode`: a URIError, a SyntaxError or the parsed payload. It has no contract of its own; `DecodeEncode` states its meaning. |
| `MockServer.Encode` | src/server.ts:115-117 | The client's `encode` yields only unreserved characters and `%` escapes, each `%` followed by two hexadecimal digits, so the text is safe to append to the set URL. |
| `MockServer.DecodeEncode` | src/server.ts:48-50 | The server's `decode` returns exactly the payload the client's `encode` encoded, given a round-tripping JSON host and a well-formed payload. |
| `MockServer.ResolveReal` | src/server.ts:86-90 | The answer is present exactly when the key derived from the URL minus `realApiUrl.length` characters is in the store, and then it is that key's stored value. |
| `MockServer.ResolveRealStripsBasePath` | src/server.ts:87-88 | For `url = realApiUrl + path`, the key is derived from exactly `path`. |
| `MockServer.ResolveMock` | src/server.ts:95-107 | The get-all prefix is tried first: it answers with the whole store as an object and changes nothing. Then the set prefix: on a decode error it throws and changes nothing; otherwise the payload's key maps to its value, every other key is unchanged, and the key order follows `Map.set`. Any other URL changes nothing and answers nothing. |
| `MockServer.ResolveMockKeepsUniqueKeys` | src/server.ts:104 | No request leaves two entries for one key in the store. |
| `MockServer.SetAndGetAllAreDisjoint` | src/server.ts:38-39 | No URL has both the set prefix and the get-all prefix, so the order in which they are tested never changes the route. |
| `MockServer.Server.constructor` | src/server.ts:45-46 | `server()` starts with an empty store that keeps unique keys. |
| `MockServer.Server.ResolveRealApiRequest` | src/server.ts:86-90 | The lookup only reads the store. The answer is present exactly when the derived key is stored, and then it is the stored value. |
| `MockServer.Server.ResolveMockApiRequest` | src/server.ts:95-107 | The new store and the reply are those of `ResolveMock` on the old store, and keys stay unique. This is the only operation that writes the store. |
| `MockServer.ClientSet` | src/server.ts:123-128 | `set` is a POST whose URL starts with `address + mockApiUrl + "/set"`; the rest of the URL percent-decodes to the serialised payload. |
| `MockServer.ClientGetAll` | src/server.ts:133-138 | `getAll` is a GET whose URL, without the address, has the get-all prefix. |
| `MockServer.SetRequestStoresFixture` | src/server.ts:100-105 | The URL of `set(payload)`, once the address is removed, makes the relay store `getValue(payload)` under `getKey(payload)` and answer nothing. |
| `MockServer.ReplayAfterSet` | src/server.ts:86-89 | After `set(payload)`, an intercepted call gets the payload's value when its key matches the payload's key. Any other call gets what it got before, so a key never set stays absent. |
| `MockServer.RegisterAllWritesFixtures` | tests/server.http.test.ts:58-66 | A session of `set` calls writes the payloads' key/value pairs into the store one after another. |
| `MockServer.GetAllAfterSession` | tests/server.http.test.ts:68-75 | After a session on a fresh relay, `getAll` returns the store unchanged. Each key appears once, in order of first registration, with the value of its last registration. |
| `ServerHttpTest.HttpScenario` | tests/server.http.test.ts:49-92 | After the test's two registrations, `getAll` yields `{"GET /some/url": {foo: "foo"}, "POST /some/other/url": {bar: "bar"}}` in that order. The GET and the POST call get their fixtures. Beyond the test's own checks, a GET to the POST-only path gets nothing. |
| `ServerHttpTest.FirstPayload` | tests/server.http.test.ts:50-56 | The first payload is well formed and registers `{foo: "foo"}` under `GET /some/url`. |
| `ServerHttpTest.SecondPayload` | tests/server.http.test.ts:60-66 | The second payload is well formed and registers `{bar: "bar"}` under `POST /some/other/url`. |
| `ServerHttpTest.TestStore` | tests/server.http.test.ts:68-75 | The two registrations leave exactly the two entries, in registration order. |
| `ServerHttpTest.TestLookups` | tests/server.http.test.ts:77-91 | From that store, `GET /api/some/url` and `POST /api/some/other/url` get their fixtures. Beyond the test's own checks, `GET /api/some/other/url` gets nothing, because the key includes the method. |
| `MockBuilder.Unwrap` | src/builder.ts:31-33 | A function override applied to the faker, a value override as it is, no argument as `undefined`. It has no contract of its own; `ComputedOverrideIsApplied` and `BuildMock` state its meaning. |
| `MockBuilder.IsObject` | src/builder.ts:36-37 | `typeof v === "object" && v !== null`. It has no contract of its own; `BuildMock` states its meaning as the merge test. |
| `MockBuilder.Assign` | src/builder.ts:36-39 | `Object.assign` on two objects: each override property has the override's value, and every other property keeps the generated value. The generated keys stay in place and new keys follow in override order; names stay unique. |
| `MockBuilder.BuildMock` | src/builder.ts:27-50 | With no argument, the result is the generated value. With an argument and not both values objects, it is the unwrapped override. With both objects, it is their `Object.assign` merge. |
| `MockBuilder.ExplicitUndefinedReplaces` | src/builder.ts:42-46 | An override passed explicitly as `undefined` replaces even an object-valued generated value. |
| `MockBuilder.ComputedOverrideIsApplied` | src/builder.ts:31-33 | A function override is applied to the configured faker, and its result acts as the override. |
| `MockBuilder.GeneratorSeenOnlyAtFaker` | src/builder.ts:28 | The generator is consulted only at `config.faker`: two generators that agree there build the same mock. |
| `MockBuilder.MergeIsShallow` | src/builder.ts:36-39 | When both values are objects, an override property replaces the generated one whole, even an object, and every other generated property is kept. |
| `MockBuilder.MergeExample` | src/builder.ts:36-39 | `{a: 1, b: 2}` overridden by `{b: 3}` builds `{a: 1, b: 3}`. |

## Left out

- The HTTP transport, `fetch`, the port listener and the caller's async `request` function are not modelled. The client operations return the `{ url, method }` they would send. The relay sees that URL with the address removed.
- `JSON.stringify` and `JSON.parse` are abstract. Number formatting and floating point are not modelled (numbers are integers). Values that do not survive `JSON.stringify` (`undefined`, functions) are not modelled either. The round trip is an explicit precondition (`Json.RoundTrips`) wherever it is used.
- Strings are sequences of Unicode scalar values, not UTF-16 code units. So `encodeURIComponent`'s lone-surrogate URIError cannot arise. Also, `.length` and `.slice` count scalar values, which agrees with JavaScript only on text without astral characters.
- `Json.RoundTrips` is assumed only for well-formed values. The host's real `JSON.parse` lists array-index member names first, in ascending order, and loses integers beyond 2^53. Objects listing their members in any other order, and such integers, are therefore not well formed, and the relay lemmas that rest on `DecodeEncode` say nothing about payloads containing them.
- `Object.fromEntries` and plain objects move integer-like keys to the front. The snapshot and the builder's merge keep plain insertion order instead.
- Exceptions thrown by the caller's `getKey` or `getValue` are not modelled: both are total functions.
- A store value that is `undefined` cannot be told apart from an absent key in JavaScript. In the model, values are JSON values and absence is `None`.
- `MockBuilder.BuildMock`: a pure function cannot count calls. "The generator is called exactly once" is captured only as "the result depends on the generator only through `build(config.faker)`".
- `MockBuilder.Value`: a function value passed directly as an override is always written `Computed`. `Prim` also stands for functions a generator or an override returns, which are not objects to the merge.
- The store holds fixture values by reference. `store.get` returns the stored object itself, and the snapshot from `Object.fromEntries` shares the store's objects; `getValue` may also return one object for several payloads. A caller in the same process that mutated such an object would change later answers. In the model values cannot change, so `ReplayAfterSet`, `GetAllAfterSession` and the read-only lookup assume that callers never mutate what they receive. The HTTP wrapper serialises them at once.
- `MockBuilder.Assign`: `Object.assign` writes into the generator's object in place. If `build` returns an object it shares, later builds see the merged properties. The model assumes `build` returns a fresh object on every call. Aliasing between builds is not modelled.
- Arrays in the builder are represented as objects keyed by their indices, which is how `Object.assign` treats them.
- TypeScript's template-literal URL types and generic bounds are compile-time only and have no counterpart.

=== FILE: insertion_map.dfy ===
/**
 * A string-keyed dictionary that remembers insertion order, as an ECMAScript
 * `Map` (and the string keys of a plain object) does: a sequence of key/value
 * entries. `Put` is `Map.prototype.set` (an existing key keeps its place, a new
 * key goes to the end); `PutAll` is a series of `Put`s, which is also what
 * `Object.assign(target, source)` does with the entries of `source`.
 */
module InsertionMap {
  import opened Wrappers

  type Entries<V> = seq<(string, V)>

  /** The keys, in entry order. */
  function Keys<V>(m: Entries<V>): (ks: seq<string>)
    ensures |ks| == |m|
  {
    if m == [] then [] else [m[0].0] + Keys(m[1..])
  }

  lemma {:induction false} KeysAt<V>(m: Entries<V>, i: nat)
    requires i < |m|
    ensures Keys(m)[i] == m[i].0
    decreases i
  {
    if i > 0 {
      KeysAt(m[1..], i - 1);
    }
  }

  /** No key occurs in two entries. */
  ghost predicate UniqueKeys<V>(m: Entries<V>) {
    forall i, j :: 0 <= i < j < |m| ==> m[i].0 != m[j].0
  }

  /** `Map.prototype.get`: the value of the first entry for `k`, if there is one. */
  function Get<V>(m: Entries<V>, k: string): Option<V>
  {
    if m == [] then None
    else if m[0].0 == k then Some(m[0].1)
    else Get(m[1..], k)
  }

  /** `Get` finds a value exactly for the keys present, and the value it finds is stored under that key. */
  lemma {:induction false} GetFound<V>(m: Entries<V>, k: string)
    ensures Get(m, k).Some? <==> k in Keys(m)
    ensures Get(m, k).Some? ==> (k, Get(m, k).value) in m
    decreases |m|
  {
    if m != [] {
      GetFound(m[1..], k);
      assert Keys(m) == [m[0].0] + Keys(m[1..]);
    }
  }

  /** `Map.prototype.set`: overwrite in place, or append a new entry. */
  function Put<V>(m: Entries<V>, k: string, v: V): (r: Entries<V>)
    ensures Get(r, k) == Some(v)
    ensures forall k' :: k' != k ==> Get(r, k') == Get(m, k')
    ensures Keys(r) == if k in Keys(m) then Keys(m) else Keys(m) + [k]
  {
    if m == [] then [(k, v)]
    else if m[0].0 == k then [(k, v)] + m[1..]
    else
      var rest := Put(m[1..], k, v);
      assert ([m[0]] + rest)[1..] == rest;
      [m[0]] + rest
  }

  /** A key not yet present is appended as the last entry, after all the others. */
  lemma {:induction false} PutNewKey<V>(m: Entries<V>, k: string, v: V)
    requires k !in Keys(m)
    ensures Put(m, k, v) == m + [(k, v)]
    decreases |m|
  {
    if m != [] {
      PutNewKey(m[1..], k, v);
      assert m == [m[0]] + m[1..];
    }
  }

  /** Writing never creates a second entry for a key. */
  lemma PutKeepsUniqueKeys<V>(m: Entries<V>, k: string, v: V)
    requires UniqueKeys(m)
    ensures UniqueKeys(Put(m, k, v))
  {
    var r := Put(m, k, v);
    forall i, j | 0 <= i < j < |r| ensures r[i].0 != r[j].0 {
      KeysAt(r, i);
      KeysAt(r, j);
      KeysAt(m, i);
      if j < |m| {
        KeysAt(m, j);
      }
    }
  }

  /** The entries of `es` stored one after another, first to last. */
  function PutAll<V>(m: Entries<V>, es: Entries<V>): Entries<V>
    decreases |es|
  {
    if es == [] then m else PutAll(Put(m, es[0].0, es[0].1), es[1..])
  }

  /** A series of writes never creates a second entry for a key. */
  lemma {:induction false} PutAllKeepsUniqueKeys<V>(m: Entries<V>, es: Entries<V>)
    requires UniqueKeys(m)
    ensures UniqueKeys(PutAll(m, es))
    decreases |es|
  {
    if es != [] {
      PutKeepsUniqueKeys(m, es[0].0, es[0].1);
      PutAllKeepsUniqueKeys(Put(m, es[0].0, es[0].1), es[1..]);
    }
  }

  /** The value of the LAST entry of `es` for `k`: the one a series of writes leaves behind. */
  function Latest<V>(es: Entries<V>, k: string): Option<V>
  {
    if es == [] then None
    else match Latest(es[1..], k)
      case Some(v) => Some(v)
      case None => if es[0].0 == k then Some(es[0].1) else None
  }

  /** `Latest` finds a value exactly for the keys present. */
  lemma {:induction false} LatestFound<V>(es: Entries<V>, k: string)
    ensures Latest(es, k).Some? <==> k in Keys(es)
    decreases |es|
  {
    if es != [] {
      LatestFound(es[1..], k);
      assert Keys(es) == [es[0].0] + Keys(es[1..]);
    }
  }

  /** The keys of `ks` that are not in `seen`, each once, in the order of their first occurrence. */
  function NewKeys(seen: seq<string>, ks: seq<string>): seq<string>
    decreases |ks|
  {
    if ks == [] then []
    else if ks[0] in seen then NewKeys(seen, ks[1..])
    else [ks[0]] + NewKeys(seen + [ks[0]], ks[1..])
  }

  /** After a series of writes the last write of each key wins; keys never written keep their value. */
  lemma {:induction false} PutAllGet<V>(m: Entries<V>, es: Entries<V>, k: string)
    ensures Get(PutAll(m, es), k) == if k in Keys(es) then Latest(es, k) else Get(m, k)
    decreases |es|
  {
    if es != [] {
      var m' := Put(m, es[0].0, es[0].1);
      PutAllGet(m', es[1..], k);
      LatestFound(es[1..], k);
      assert Keys(es) == [es[0].0] + Keys(es[1..]);
    }
  }

  /** A series of writes keeps the existing keys where they are and appends the new ones in first-write order. */
  lemma {:induction false} PutAllKeys<V>(m: Entries<V>, es: Entries<V>)
    ensures Keys(PutAll(m, es)) == Keys(m) + NewKeys(Keys(m), Keys(es))
    decreases |es|
  {
    if es == [] {
      assert Keys(es) == [];
    } else {
      var k := es[0].0;
      PutAllKeys(Put(m, k, es[0].1), es[1..]);
      assert Keys(es) == [k] + Keys(es[1..]);
      NewKeysStep(Keys(m), k, Keys(es[1..]));
    }
  }

  /** One step of `NewKeys`: a key already seen adds nothing, a fresh key is appended. */
  lemma NewKeysStep(ks: seq<string>, k: string, rest: seq<string>)
    ensures var ks' := if k in ks then ks else ks + [k];
      ks + NewKeys(ks, [k] + rest) == ks' + NewKeys(ks', rest)
  {
    assert ([k] + rest)[0] == k && ([k] + rest)[1..] == rest;
    if k !in ks {
      assert ks + ([k] + NewKeys(ks + [k], rest)) == (ks + [k]) + NewKeys(ks + [k], rest);
    }
  }

  /** In entries with unique keys the last entry for a key is also its only one. */
  lemma {:induction false} LatestOfUniqueKeys<V>(es: Entries<V>, k: string)
    requires UniqueKeys(es)
    ensures Latest(es, k) == Get(es, k)
    decreases |es|
  {
    if es != [] {
      assert UniqueKeys(es[1..]) by {
        forall i, j | 0 <= i < j < |es[1..]| ensures es[1..][i].0 != es[1..][j].0 {
          assert es[1..][i] == es[i + 1] && es[1..][j] == es[j + 1];
        }
      }
      LatestOfUniqueKeys(es[1..], k);
      LatestFound(es[1..], k);
      if es[0].0 == k {
        forall i | 0 <= i < |es[1..]| ensures Keys(es[1..])[i] != k {
          KeysAt(es[1..], i);
          assert es[1..][i] == es[i + 1];
        }
      }
    }
  }
}

=== FILE: json.dfy ===
/**
 * JSON values (RFC 8259) as the relay carries them, and the host's
 * `JSON.stringify` / `JSON.parse` pair, which is not modelled beyond the
 * promise that parsing gives back what was serialised.
 */
module Json {
  import opened Wrappers
  import InsertionMap

  /** Numbers are integers here; an object keeps its members in insertion order. */
  datatype Value =
    | Null
    | Bool(b: bool)
    | Num(n: int)
    | Str(s: string)
    | Arr(items: seq<Value>)
    | Obj(members: InsertionMap.Entries<Value>)

  /** `Number.MAX_SAFE_INTEGER`: integers up to this magnitude survive a JavaScript number exactly. */
  const MaxSafeInteger: int := 0x1F_FFFF_FFFF_FFFF

  /** A non-empty string of decimal digits. */
  predicate IsDigits(k: string) {
    |k| > 0 && forall i :: 0 <= i < |k| ==> '0' <= k[i] <= '9'
  }

  /** The number a string of decimal digits denotes. */
  function DigitsValue(k: string): nat
    requires IsDigits(k)
    decreases |k|
  {
    var d := k[|k| - 1] as int - '0' as int;
    if |k| == 1 then d else DigitsValue(k[..|k| - 1]) * 10 + d
  }

  /**
   * An array-index member name: the canonical decimal form (no leading zero) of
   * an integer up to 2^32 - 2. JavaScript objects list such names first, in
   * ascending numeric order, and all other names after them in insertion order.
   */
  predicate IsIndexName(k: string) {
    && IsDigits(k)
    && (k[0] != '0' || |k| == 1)
    && DigitsValue(k) <= 0xFFFF_FFFE
  }

  /** Member names in the order a JavaScript object lists them: index names first, ascending. */
  predicate InPropertyOrder(members: InsertionMap.Entries<Value>) {
    forall i, j :: 0 <= i < j < |members| && IsIndexName(members[j].0) ==>
      IsIndexName(members[i].0) && DigitsValue(members[i].0) < DigitsValue(members[j].0)
  }

  /**
   * A value that `JSON.parse` gives back exactly as it is written here: no object,
   * at any depth, names a member twice or lists its members in an order
   * `JSON.parse` would change, and every number is a safe integer.
   */
  ghost predicate WellFormed(v: Value)
    decreases v
  {
    match v
    case Num(n) => -MaxSafeInteger <= n <= MaxSafeInteger
    case Arr(items) => forall i :: 0 <= i < |items| ==> WellFormed(items[i])
    case Obj(members) =>
      && InsertionMap.UniqueKeys(members)
      && InPropertyOrder(members)
      && forall i :: 0 <= i < |members| ==> WellFormed(members[i].1)
    case _ => true
  }

  /** An object with a single index-named member is kept as it is. */
  lemma LoneIndexNameKept()
    ensures WellFormed(Obj([("0", Num(1))]))
  {
    var m := [("0", Num(1))];
    assert m[0].0 == "0";
  }

  /** A digit name beyond the largest array index keeps its insertion position. */
  lemma LargeDigitNameKept()
    ensures WellFormed(Obj([("a", Num(1)), ("4294967295", Num(2))]))
  {
    assert DigitsValue("4294967295") == 0xFFFF_FFFF by {
      assert "4294967295"[..9] == "429496729";
      assert "429496729"[..8] == "42949672";
      assert "42949672"[..7] == "4294967";
      assert "4294967"[..6] == "429496";
      assert "429496"[..5] == "42949";
      assert "42949"[..4] == "4294";
      assert "4294"[..3] == "429";
      assert "429"[..2] == "42";
      assert "42"[..1] == "4";
    }
    var m := [("a", Num(1)), ("4294967295", Num(2))];
    assert m[0].0 == "a" && m[1].0 == "4294967295";
    assert !IsIndexName("a") && !IsIndexName("4294967295");
    assert "a"[0] != "4294967295"[0];
  }

  /** Index names first, in ascending order, then the other names: the order `JSON.parse` produces. */
  lemma AscendingIndexNamesKept()
    ensures WellFormed(Obj([("1", Num(1)), ("404", Num(2)), ("b", Num(3))]))
  {
    assert DigitsValue("404") == 404 by {
      assert "404"[..2] == "40" && "40"[..1] == "4";
    }
    var m := [("1", Num(1)), ("404", Num(2)), ("b", Num(3))];
    assert m[0].0 == "1" && m[1].0 == "404" && m[2].0 == "b";
    assert IsIndexName("1") && IsIndexName("404") && !IsIndexName("b");
    assert "1"[0] != "404"[0] && "1"[0] != "b"[0] && "404"[0] != "b"[0];
  }

  /** An index name after another name would move to the front, so the object is not well formed. */
  lemma IndexNameAfterOtherRejected()
    ensures !WellFormed(Obj([("b", Num(1)), ("1", Num(2))]))
  {
    var m := [("b", Num(1)), ("1", Num(2))];
    assert m[0].0 == "b" && m[1].0 == "1";
    assert !IsIndexName("b") && IsIndexName("1");
  }

  /** Index names out of ascending order would be reordered, so the object is not well formed. */
  lemma DescendingIndexNamesRejected()
    ensures !WellFormed(Obj([("404", Num(1)), ("1", Num(2))]))
  {
    assert DigitsValue("404") == 404 by {
      assert "404"[..2] == "40" && "40"[..1] == "4";
    }
    var m := [("404", Num(1)), ("1", Num(2))];
    assert m[0].0 == "404" && m[1].0 == "1";
    assert IsIndexName("1") && DigitsValue("1") == 1;
  }

  /** The host's serialiser and parser; `parse` gives None where `JSON.parse` throws a SyntaxError. */
  datatype Host = Host(stringify: Value -> string, parse: string -> Option<Value>)

  /** `JSON.parse(JSON.stringify(v))` is `v`, member order included, for every well-formed value. */
  ghost predicate RoundTrips(host: Host) {
    forall v :: WellFormed(v) ==> host.parse(host.stringify(v)) == Some(v)
  }
}

=== FILE: mock_builder.dfy ===
/**
 * The override rule of `configureMockBuilder(config).createMockBuilder(build)`:
 * a built mock is the generator's value, the override shallow-merged onto it
 * when both are objects, or else the override itself whenever an override
 * argument was passed at all.
 *
 * `configureMockBuilder` and `createMockBuilder` only capture `config` and
 * `build`; here they are the first two parameters of `BuildMock`.
 */
module MockBuilder {
  import opened Wrappers
  import opened InsertionMap

  /**
   * A JavaScript value as the builder tells values apart: `undefined`, `null`,
   * an object with its own properties in order (an array is the object of its
   * indices), or any other value, of type `P` (numbers, strings, booleans,
   * functions returned by a generator, ...).
   */
  datatype Value<P> = Undefined | Null | Prim(p: P) | Obj(fields: Entries<Value<P>>)

  /** An override argument: a (partial) value, or a function of the faker that computes one. */
  datatype OverrideBuilder<-F, P> = Partial(value: Value<P>) | Computed(compute: F -> Value<P>)

  datatype BuilderConfig<F> = BuilderConfig(faker: F)

  /** `typeof v === "object" && v !== null`. */
  predicate IsObject<P>(v: Value<P>) {
    v.Obj?
  }

  /** The override once a function override has been applied to the faker; a missing argument reads as `undefined`. */
  function Unwrap<F, P>(override: Option<OverrideBuilder<F, P>>, faker: F): Value<P> {
    match override
    case None => Undefined
    case Some(Partial(v)) => v
    case Some(Computed(f)) => f(faker)
  }

  /**
   * `Object.assign(target, source)` on two objects' properties: each property
   * of `source` is written onto `target` in turn, so the source's properties
   * win, the target's other properties stay, and new properties follow the
   * target's own in the source's order.
   */
  function Assign<P>(target: Entries<Value<P>>, source: Entries<Value<P>>): (r: Entries<Value<P>>)
    ensures Keys(r) == Keys(target) + NewKeys(Keys(target), Keys(source))
    ensures forall k :: Get(r, k) == if k in Keys(source) then Latest(source, k) else Get(target, k)
    ensures UniqueKeys(target) ==> UniqueKeys(r)
  {
    PutAllKeys(target, source);
    assert UniqueKeys(target) ==> UniqueKeys(PutAll(target, source)) by {
      if UniqueKeys(target) {
        PutAllKeepsUniqueKeys(target, source);
      }
    }
    assert forall k :: Get(PutAll(target, source), k)
                       == (if k in Keys(source) then Latest(source, k) else Get(target, k)) by {
      forall k ensures Get(PutAll(target, source), k)
          == if k in Keys(source) then Latest(source, k) else Get(target, k) {
        PutAllGet(target, source, k);
      }
    }
    PutAll(target, source)
  }

  /**
   * `buildMock(override?)`; `override` is None when the mock is built with no
   * argument and Some when an argument was passed, even `undefined`.
   */
  function BuildMock<F, P>(config: BuilderConfig<F>, build: F -> Value<P>, override: Option<OverrideBuilder<F, P>>)
    : (r: Value<P>)
    ensures var generated, ov := build(config.faker), Unwrap(override, config.faker);
      && (override.None? ==> r == generated)
      && (override.Some? && !(IsObject(generated) && IsObject(ov)) ==> r == ov)
      && (IsObject(generated) && IsObject(ov) ==> r == Obj(Assign(generated.fields, ov.fields)))
  {
    var original := build(config.faker);
    var ov := Unwrap(override, config.faker);
    if original.Obj? && ov.Obj? then
      Obj(Assign(original.fields, ov.fields))
    else if override.Some? then
      ov
    else
      original
  }

  /** Passing `undefined` explicitly replaces even an object-valued generated value. */
  lemma ExplicitUndefinedReplaces<F, P>(config: BuilderConfig<F>, build: F -> Value<P>)
    ensures BuildMock(config, build, Some(Partial(Undefined))) == Undefined
  {
  }

  /** A function override is called with the configured faker and its result acts as the override. */
  lemma ComputedOverrideIsApplied<F, P>(config: BuilderConfig<F>, build: F -> Value<P>, compute: F -> Value<P>)
    ensures BuildMock(config, build, Some(Computed(compute)))
         == BuildMock(config, build, Some(Partial(compute(config.faker))))
  {
  }

  /** The generator is consulted only at the configured faker: two generators that agree there build the same mock. */
  lemma GeneratorSeenOnlyAtFaker<F, P>(config: BuilderConfig<F>, build1: F -> Value<P>, build2: F -> Value<P>,
                                       override: Option<OverrideBuilder<F, P>>)
    requires build1(config.faker) == build2(config.faker)
    ensures BuildMock(config, build1, override) == BuildMock(config, build2, override)
  {
  }

  /**
   * The merge is shallow: when both values are objects (whose property names
   * are unique), a property of the override, even an object, replaces the
   * generated one whole, and every other generated property is kept.
   */
  lemma MergeIsShallow<F, P>(config: BuilderConfig<F>, build: F -> Value<P>, override: Option<OverrideBuilder<F, P>>,
                             k: string)
    requires IsObject(build(config.faker)) && IsObject(Unwrap(override, config.faker))
    requires UniqueKeys(Unwrap(override, config.faker).fields)
    ensures var r, ov := BuildMock(config, build, override), Unwrap(override, config.faker);
      && r.Obj?
      && (k in Keys(ov.fields) ==> Get(r.fields, k) == Get(ov.fields, k))
      && (k !in Keys(ov.fields) ==> Get(r.fields, k) == Get(build(config.faker).fields, k))
  {
    LatestOfUniqueKeys(Unwrap(override, config.faker).fields, k);
  }

  /** The merge law on a small case: `{a: 1, b: 2}` overridden by `{b: 3}` builds `{a: 1, b: 3}`. */
  lemma MergeExample(config: BuilderConfig<()>)
    ensures BuildMock(config, _ => Obj([("a", Prim(1)), ("b", Prim(2))]), Some(Partial(Obj([("b", Prim(3))]))))
         == Obj([("a", Prim(1)), ("b", Prim(3))])
  {
    var target: Entries<Value<int>> := [("a", Prim(1)), ("b", Prim(2))];
    assert Put(target, "b", Prim(3)) == [("a", Prim(1)), ("b", Prim(3))];
  }
}

=== FILE: mock_server.dfy ===
/**
 * The mock-store relay of `configureMockServer`: a server half that keeps the
 * fixtures in an insertion-ordered store and answers two kinds of URL, and a
 * client half that builds the requests registering and listing fixtures.
 *
 * The caller-supplied key and value derivations are function parameters. The
 * transport between client and server is the assumption that the server sees
 * the client's URL without the client's `address` (`ServerUrl`).
 */
module MockServer {
  import opened Wrappers
  import opened InsertionMap
  import Json
  import PercentEncoding

  /** The base path of the intercepted API and the base path of the relay's own endpoints. */
  datatype Configuration = Configuration(realApiUrl: string, mockApiUrl: string)

  function SetUrl(config: Configuration): string {
    config.mockApiUrl + "/set"
  }

  function GetAllUrl(config: Configuration): string {
    config.mockApiUrl + "/get-all"
  }

  /** `String.prototype.startsWith`. */
  predicate StartsWith(s: string, prefix: string) {
    prefix <= s
  }

  /** `String.prototype.slice(start)` for a non-negative `start`: empty past the end. */
  function Slice(s: string, start: nat): string {
    if start <= |s| then s[start..] else []
  }

  /** Fixture key to fixture value, in first-insertion order. */
  type Store = Entries<Json.Value>

  /** What `decode` throws: a URIError from `decodeURIComponent` or a SyntaxError from `JSON.parse`. */
  datatype DecodeError = UriError | JsonSyntaxError

  /** The server's `decode`: percent-decode, then parse. */
  function Decode(json: Json.Host, text: string): Result<Json.Value, DecodeError> {
    match PercentEncoding.PercentDecode(text)
    case None => Failure(UriError)
    case Some(t) =>
      match json.parse(t)
      case None => Failure(JsonSyntaxError)
      case Some(v) => Success(v)
  }

  /** The client's `encode`: serialise, then percent-encode. */
  function Encode(json: Json.Host, payload: Json.Value): (text: string)
    ensures forall i :: 0 <= i < |text| ==> PercentEncoding.IsUnreserved(text[i]) || text[i] == '%'
    ensures PercentEncoding.WellEscaped(text)
  {
    PercentEncoding.PercentEncodeWellEscaped(json.stringify(payload));
    PercentEncoding.PercentEncode(json.stringify(payload))
  }

  /** The server decodes exactly the payload the client encoded. */
  lemma DecodeEncode(json: Json.Host, payload: Json.Value)
    requires Json.RoundTrips(json) && Json.WellFormed(payload)
    ensures Decode(json, Encode(json, payload)) == Success(payload)
  {
    PercentEncoding.PercentRoundTrip(json.stringify(payload));
  }

  /**
   * `resolveRealApiRequest` on a store: drop as many characters as the real
   * API's base path has (the prefix itself is not checked), derive the key from
   * the rest and look it up. Absent exactly when that key was never stored.
   */
  function ResolveReal(config: Configuration, store: Store, url: string, getKey: string -> string)
    : (r: Option<Json.Value>)
    ensures var key := getKey(Slice(url, |config.realApiUrl|));
      && (r.Some? <==> key in Keys(store))
      && (r.Some? ==> (key, r.value) in store)
  {
    var key := getKey(Slice(url, |config.realApiUrl|));
    GetFound(store, key);
    Get(store, key)
  }

  /** For `url = realApiUrl + path` the key is derived from exactly `path`. */
  lemma ResolveRealStripsBasePath(config: Configuration, store: Store, path: string, getKey: string -> string)
    ensures ResolveReal(config, store, config.realApiUrl + path, getKey) == Get(store, getKey(path))
  {
    assert Slice(config.realApiUrl + path, |config.realApiUrl|) == path;
  }

  /**
   * What `resolveMockApiRequest` returns: the store as a plain object, nothing
   * (`undefined`, both after a registration and for an unmatched URL), or the
   * error `decode` throws.
   */
  datatype MockReply = Snapshot(all: Json.Value) | Nothing | Thrown(error: DecodeError)

  datatype Outcome = Outcome(store: Store, reply: MockReply)

  /** A URL the relay routes to its set endpoint: the get-all prefix is tested first. */
  predicate IsSetRequest(config: Configuration, url: string) {
    !StartsWith(url, GetAllUrl(config)) && StartsWith(url, SetUrl(config))
  }

  /** The payload carried by a set URL: everything after the set prefix, decoded. */
  function SetPayload(config: Configuration, json: Json.Host, url: string): Result<Json.Value, DecodeError> {
    Decode(json, Slice(url, |SetUrl(config)|))
  }

  /**
   * `resolveMockApiRequest` on a store: the get-all prefix is tried first and
   * answers with the whole store; then the set prefix, whose remainder is
   * decoded into a payload and stored under the derived key; anything else
   * changes nothing and answers nothing.
   */
  function ResolveMock(config: Configuration, json: Json.Host, store: Store, url: string,
                       getKey: Json.Value -> string, getValue: Json.Value -> Json.Value): (o: Outcome)
    ensures StartsWith(url, GetAllUrl(config)) ==> o == Outcome(store, Snapshot(Json.Obj(store)))
    ensures !StartsWith(url, GetAllUrl(config)) && !StartsWith(url, SetUrl(config)) ==>
      o == Outcome(store, Nothing)
    ensures o.store != store ==> o.reply == Nothing && StartsWith(url, SetUrl(config))
    ensures IsSetRequest(config, url) && SetPayload(config, json, url).Failure? ==>
      o == Outcome(store, Thrown(SetPayload(config, json, url).error))
    ensures IsSetRequest(config, url) && SetPayload(config, json, url).Success? ==>
      var p := SetPayload(config, json, url).value;
      o.reply == Nothing && Get(o.store, getKey(p)) == Some(getValue(p))
    ensures IsSetRequest(config, url) && SetPayload(config, json, url).Success? ==>
      var p := SetPayload(config, json, url).value;
      forall k :: k != getKey(p) ==> Get(o.store, k) == Get(store, k)
    ensures IsSetRequest(config, url) && SetPayload(config, json, url).Success? ==>
      var key := getKey(SetPayload(config, json, url).value);
      Keys(o.store) == if key in Keys(store) then Keys(store) else Keys(store) + [key]
  {
    if StartsWith(url, GetAllUrl(config)) then
      Outcome(store, Snapshot(Json.Obj(store)))
    else if StartsWith(url, SetUrl(config)) then
      match SetPayload(config, json, url)
      case Failure(e) => Outcome(store, Thrown(e))
      case Success(p) => Outcome(Put(store, getKey(p), getValue(p)), Nothing)
    else
      Outcome(store, Nothing)
  }

  /** The store never holds two entries for one key. */
  lemma ResolveMockKeepsUniqueKeys(config: Configuration, json: Json.Host, store: Store, url: string,
                                   getKey: Json.Value -> string, getValue: Json.Value -> Json.Value)
    requires UniqueKeys(store)
    ensures UniqueKeys(ResolveMock(config, json, store, url, getKey, getValue).store)
  {
    if IsSetRequest(config, url) {
      match SetPayload(config, json, url)
      case Failure(_) =>
      case Success(p) => PutKeepsUniqueKeys(store, getKey(p), getValue(p));
    }
  }

  /** No URL starts with both the set prefix and the get-all prefix, so their order of testing never matters. */
  lemma SetAndGetAllAreDisjoint(config: Configuration, url: string)
    requires StartsWith(url, SetUrl(config))
    ensures !StartsWith(url, GetAllUrl(config))
  {
    var i := |config.mockApiUrl| + 1;
    assert url[i] == SetUrl(config)[i] == 's';
    assert GetAllUrl(config)[i] == 'g';
  }

  /** A relay instance of `configureMockServer(config).server()`: its store lives as long as the object. */
  class Server {
    const config: Configuration
    const json: Json.Host
    var store: Store

    ghost predicate Valid()
      reads this
    {
      UniqueKeys(store)
    }

    /** `server()` starts with an empty store. */
    constructor (config: Configuration, json: Json.Host)
      ensures Valid()
      ensures this.config == config && this.json == json
      ensures store == []
    {
      this.config := config;
      this.json := json;
      store := [];
    }

    /** `resolveRealApiRequest`: a lookup that only reads the store. */
    function ResolveRealApiRequest(url: string, getKey: string -> string): (r: Option<Json.Value>)
      reads this
      ensures var key := getKey(Slice(url, |config.realApiUrl|));
        && (r.Some? <==> key in Keys(store))
        && (r.Some? ==> (key, r.value) in store)
    {
      ResolveReal(config, store, url, getKey)
    }

    /** `resolveMockApiRequest`: the only operation that writes the store. */
    method ResolveMockApiRequest(url: string, getKey: Json.Value -> string, getValue: Json.Value -> Json.Value)
      returns (reply: MockReply)
      requires Valid()
      modifies this
      ensures Valid()
      ensures Outcome(store, reply) == ResolveMock(config, json, old(store), url, getKey, getValue)
    {
      ResolveMockKeepsUniqueKeys(config, json, store, url, getKey, getValue);
      if StartsWith(url, GetAllUrl(config)) {
        return Snapshot(Json.Obj(store));
      }
      if StartsWith(url, SetUrl(config)) {
        var decoded := SetPayload(config, json, url);
        if decoded.Failure? {
          return Thrown(decoded.error);
        }
        var key := getKey(decoded.value);
        var value := getValue(decoded.value);
        store := Put(store, key, value);
        return Nothing;
      }
      return Nothing;
    }
  }

  /** The client's `address`; the caller's `request` function is the transport and is not modelled. */
  datatype ClientConfiguration = ClientConfiguration(address: string)

  datatype HttpMethod = GET | POST

  /** The `{ url, method }` the client hands to `request` (`verb` is its `method`). */
  datatype RequestArgs = RequestArgs(url: string, verb: HttpMethod)

  /** The URL the relay receives for a request: the transport removes the client's `address`. */
  function ServerUrl(client: ClientConfiguration, request: RequestArgs): string {
    Slice(request.url, |client.address|)
  }

  /** `set(payload)`: a POST whose URL carries, after the set prefix, the percent-encoded serialisation of the payload. */
  function ClientSet(config: Configuration, client: ClientConfiguration, json: Json.Host, payload: Json.Value)
    : (r: RequestArgs)
    ensures r.verb == POST
    ensures StartsWith(r.url, client.address + SetUrl(config))
    ensures PercentEncoding.PercentDecode(r.url[|client.address + SetUrl(config)|..]) == Some(json.stringify(payload))
  {
    var prefix := client.address + SetUrl(config);
    var url := prefix + Encode(json, payload);
    assert url[|prefix|..] == Encode(json, payload);
    PercentEncoding.PercentRoundTrip(json.stringify(payload));
    RequestArgs(url, POST)
  }

  /** `getAll()`: a GET that the relay, once the address is removed, routes to the get-all endpoint. */
  function ClientGetAll(config: Configuration, client: ClientConfiguration): (r: RequestArgs)
    ensures r.verb == GET
    ensures StartsWith(r.url, client.address)
    ensures StartsWith(ServerUrl(client, r), GetAllUrl(config))
  {
    var url := client.address + GetAllUrl(config);
    assert url[|client.address|..] == GetAllUrl(config);
    RequestArgs(url, GET)
  }

  /** A fixture sent with `set` is stored under the key derived from the payload; the relay answers nothing. */
  lemma SetRequestStoresFixture(config: Configuration, client: ClientConfiguration, json: Json.Host, store: Store,
                                payload: Json.Value, getKey: Json.Value -> string, getValue: Json.Value -> Json.Value)
    requires Json.RoundTrips(json) && Json.WellFormed(payload)
    ensures ResolveMock(config, json, store, ServerUrl(client, ClientSet(config, client, json, payload)), getKey, getValue)
         == Outcome(Put(store, getKey(payload), getValue(payload)), Nothing)
  {
    var url := ServerUrl(client, ClientSet(config, client, json, payload));
    var prefix := client.address + SetUrl(config);
    var full := prefix + Encode(json, payload);
    assert full[|client.address|..] == SetUrl(config) + Encode(json, payload);
    assert url == SetUrl(config) + Encode(json, payload);
    assert StartsWith(url, SetUrl(config));
    SetAndGetAllAreDisjoint(config, url);
    assert Slice(url, |SetUrl(config)|) == Encode(json, payload);
    DecodeEncode(json, payload);
  }

  /**
   * After `set(payload)`, an intercepted call whose derived key agrees with the
   * payload's key is answered with the payload's value; any other call gets
   * what it got before, so a key never set stays absent.
   */
  lemma ReplayAfterSet(config: Configuration, client: ClientConfiguration, json: Json.Host, store: Store,
                       payload: Json.Value, getKey: Json.Value -> string, getValue: Json.Value -> Json.Value,
                       path: string, realKey: string -> string)
    requires Json.RoundTrips(json) && Json.WellFormed(payload)
    ensures var after :=
        ResolveMock(config, json, store, ServerUrl(client, ClientSet(config, client, json, payload)), getKey, getValue);
      ResolveReal(config, after.store, config.realApiUrl + path, realKey)
        == if realKey(path) == getKey(payload) then Some(getValue(payload)) else Get(store, realKey(path))
  {
    SetRequestStoresFixture(config, client, json, store, payload, getKey, getValue);
    ResolveRealStripsBasePath(config, Put(store, getKey(payload), getValue(payload)), path, realKey);
  }

  /** The `(key, value)` pair each payload registers. */
  function Fixtures(getKey: Json.Value -> string, getValue: Json.Value -> Json.Value, payloads: seq<Json.Value>)
    : Entries<Json.Value>
  {
    if payloads == [] then [] else [(getKey(payloads[0]), getValue(payloads[0]))] + Fixtures(getKey, getValue, payloads[1..])
  }

  /** The store after the client sends `set` for each payload in turn. */
  function RegisterAll(config: Configuration, client: ClientConfiguration, json: Json.Host, store: Store,
                       getKey: Json.Value -> string, getValue: Json.Value -> Json.Value, payloads: seq<Json.Value>)
    : Store
    decreases |payloads|
  {
    if payloads == [] then store
    else
      var url := ServerUrl(client, ClientSet(config, client, json, payloads[0]));
      var next := ResolveMock(config, json, store, url, getKey, getValue).store;
      RegisterAll(config, client, json, next, getKey, getValue, payloads[1..])
  }

  /** A session of `set` calls writes the payloads' fixtures into the store one after another. */
  lemma {:induction false} RegisterAllWritesFixtures(config: Configuration, client: ClientConfiguration,
                                                     json: Json.Host, store: Store, getKey: Json.Value -> string,
                                                     getValue: Json.Value -> Json.Value, payloads: seq<Json.Value>)
    requires Json.RoundTrips(json)
    requires forall i :: 0 <= i < |payloads| ==> Json.WellFormed(payloads[i])
    ensures RegisterAll(config, client, json, store, getKey, getValue, payloads)
         == PutAll(store, Fixtures(getKey, getValue, payloads))
    decreases |payloads|
  {
    if payloads != [] {
      var p := payloads[0];
      SetRequestStoresFixture(config, client, json, store, p, getKey, getValue);
      var fs := Fixtures(getKey, getValue, payloads);
      assert fs[0] == (getKey(p), getValue(p));
      assert fs[1..] == Fixtures(getKey, getValue, payloads[1..]);
      RegisterAllWritesFixtures(config, client, json, Put(store, getKey(p), getValue(p)), getKey, getValue,
                                payloads[1..]);
    }
  }

  /**
   * `getAll()` after a session of `set` calls on a fresh relay lists each
   * registered key once, in the order of its first registration, with the value
   * of its last registration.
   */
  lemma GetAllAfterSession(config: Configuration, client: ClientConfiguration, json: Json.Host,
                           getKey: Json.Value -> string, getValue: Json.Value -> Json.Value, payloads: seq<Json.Value>)
    requires Json.RoundTrips(json)
    requires forall i :: 0 <= i < |payloads| ==> Json.WellFormed(payloads[i])
    ensures var store := RegisterAll(config, client, json, [], getKey, getValue, payloads);
      var fixtures := Fixtures(getKey, getValue, payloads);
      && ResolveMock(config, json, store, ServerUrl(client, ClientGetAll(config, client)), getKey, getValue)
           == Outcome(store, Snapshot(Json.Obj(store)))
      && UniqueKeys(store)
      && Keys(store) == NewKeys([], Keys(fixtures))
      && forall k :: Get(store, k) == Latest(fixtures, k)
  {
    var fixtures := Fixtures(getKey, getValue, payloads);
    RegisterAllWritesFixtures(config, client, json, [], getKey, getValue, payloads);
    PutAllKeepsUniqueKeys([], fixtures);
    PutAllKeys([], fixtures);
    forall k ensures Get(PutAll([], fixtures), k) == Latest(fixtures, k) {
      PutAllGet([], fixtures, k);
      LatestFound(fixtures, k);
    }
  }
}

=== FILE: percent_encoding.dfy ===
/**
 * Percent-encoding (section 2.1 of RFC 3986) as ECMAScript's `encodeURIComponent`
 * and `decodeURIComponent` apply it: every character outside
 * `A-Z a-z 0-9 - _ . ! ~ * ' ( )` is written as the UTF-8 octets (RFC 3629) of
 * its code point, each as `%` and two upper-case hexadecimal digits. Decoding
 * accepts either case of hexadecimal digit, copies every other character, and
 * fails (ECMAScript's URIError) on a broken escape or an invalid UTF-8 sequence.
 * Characters are Unicode scalar values, so the lone-surrogate error of
 * `encodeURIComponent` cannot arise here.
 */
module PercentEncoding {
  import opened Wrappers

  type Byte = b: int | 0 <= b < 256

  /** The characters `encodeURIComponent` leaves as they are. */
  predicate IsUnreserved(c: char) {
    || 'A' <= c <= 'Z' || 'a' <= c <= 'z' || '0' <= c <= '9'
    || c == '-' || c == '_' || c == '.' || c == '!' || c == '~'
    || c == '*' || c == '\'' || c == '(' || c == ')'
  }

  function HexDigit(d: int): (c: char)
    requires 0 <= d < 16
    ensures IsUnreserved(c)
  {
    if d < 10 then ('0' as int + d) as char else ('A' as int + d - 10) as char
  }

  function HexValue(c: char): (r: Option<int>)
    ensures r.Some? ==> 0 <= r.value < 16
  {
    if '0' <= c <= '9' then Some(c as int - '0' as int)
    else if 'A' <= c <= 'F' then Some(c as int - 'A' as int + 10)
    else if 'a' <= c <= 'f' then Some(c as int - 'a' as int + 10)
    else None
  }

  /** `%XY` for one octet. */
  function Escape(b: Byte): string {
    ['%', HexDigit(b / 16), HexDigit(b % 16)]
  }

  function EscapeAll(bs: seq<Byte>): (s: string)
    ensures |s| == 3 * |bs|
    ensures forall i :: 0 <= i < |s| ==> IsUnreserved(s[i]) || s[i] == '%'
  {
    if bs == [] then [] else Escape(bs[0]) + EscapeAll(bs[1..])
  }

  /** Number of octets a UTF-8 sequence announces by its lead octet; 1 for a continuation octet, 5 for "five or more". */
  function LeadingOnes(b: Byte): nat {
    if b < 0x80 then 0
    else if b < 0xC0 then 1
    else if b < 0xE0 then 2
    else if b < 0xF0 then 3
    else if b < 0xF8 then 4
    else 5
  }

  predicate IsContinuation(b: Byte) {
    0x80 <= b < 0xC0
  }

  /** UTF-8 octets of one code point: one ASCII octet, or a lead octet announcing the length and continuation octets. */
  function Utf8Encode(c: char): (bs: seq<Byte>)
    ensures 1 <= |bs| <= 4
    ensures |bs| == 1 <==> (c as int) < 0x80
    ensures |bs| == 1 ==> bs[0] == c as int
    ensures |bs| > 1 ==> LeadingOnes(bs[0]) == |bs|
    ensures forall i :: 1 <= i < |bs| ==> IsContinuation(bs[i])
  {
    var v := c as int;
    if v < 0x80 then [v]
    else if v < 0x800 then [0xC0 + v / 64, 0x80 + v % 64]
    else if v < 0x10000 then [0xE0 + v / 4096, 0x80 + v / 64 % 64, 0x80 + v % 64]
    else [0xF0 + v / 262144, 0x80 + v / 4096 % 64, 0x80 + v / 64 % 64, 0x80 + v % 64]
  }

  /**
   * The code point a complete UTF-8 sequence encodes; None for an overlong form,
   * a surrogate code point, a value above U+10FFFF or a malformed sequence.
   */
  function Utf8Decode(bs: seq<Byte>): Option<char> {
    if |bs| == 1 && bs[0] < 0x80 then Some(bs[0] as char)
    else if |bs| == 2 && LeadingOnes(bs[0]) == 2 && IsContinuation(bs[1]) then
      var v := (bs[0] as int - 0xC0) * 64 + (bs[1] as int - 0x80);
      if v < 0x80 then None else Some(v as char)
    else if |bs| == 3 && LeadingOnes(bs[0]) == 3 && IsContinuation(bs[1]) && IsContinuation(bs[2]) then
      var v := (bs[0] as int - 0xE0) * 4096 + (bs[1] as int - 0x80) * 64 + (bs[2] as int - 0x80);
      if v < 0x800 || 0xD800 <= v < 0xE000 then None else Some(v as char)
    else if |bs| == 4 && LeadingOnes(bs[0]) == 4 && IsContinuation(bs[1]) && IsContinuation(bs[2])
            && IsContinuation(bs[3]) then
      var v := (bs[0] as int - 0xF0) * 262144 + (bs[1] as int - 0x80) * 4096 + (bs[2] as int - 0x80) * 64
        + (bs[3] as int - 0x80);
      if v < 0x10000 || v > 0x10FFFF then None else Some(v as char)
    else None
  }

  /** What `encodeURIComponent` writes for one character. */
  function EncodeChar(c: char): (s: string)
    ensures forall i :: 0 <= i < |s| ==> IsUnreserved(s[i]) || s[i] == '%'
  {
    if IsUnreserved(c) then [c] else EscapeAll(Utf8Encode(c))
  }

  /** `encodeURIComponent`: the result holds only unreserved characters and `%` escapes. */
  function PercentEncode(s: string): (r: string)
    ensures forall i :: 0 <= i < |r| ==> IsUnreserved(r[i]) || r[i] == '%'
  {
    if s == [] then [] else EncodeChar(s[0]) + PercentEncode(s[1..])
  }

  /** The octet written as `%XY` at the start of `s`. */
  function EscapedByte(s: string): Option<Byte> {
    if |s| >= 3 && s[0] == '%' then
      match (HexValue(s[1]), HexValue(s[2]))
      case (Some(hi), Some(lo)) => Some(hi * 16 + lo)
      case _ => None
    else None
  }

  /** `count` consecutive `%XY` escapes at the start of `s`. */
  function EscapedBytes(s: string, count: nat): (r: Option<seq<Byte>>)
    ensures r.Some? ==> |r.value| == count && 3 * count <= |s|
    decreases count
  {
    if count == 0 then Some([])
    else match EscapedByte(s)
      case None => None
      case Some(b) =>
        match EscapedBytes(s[3..], count - 1)
        case None => None
        case Some(rest) => Some([b] + rest)
  }

  /**
   * The character written by the escapes at the start of `s` (which begins with
   * `%`) and the number of characters they take.
   */
  function DecodeEscape(s: string): (r: Option<(char, nat)>)
    ensures r.Some? ==> 3 <= r.value.1 <= |s|
  {
    match EscapedByte(s)
    case None => None
    case Some(lead) =>
      if 0x80 <= lead && (LeadingOnes(lead) == 1 || LeadingOnes(lead) > 4) then None
      else
        var n := if lead < 0x80 then 1 else LeadingOnes(lead);
        match EscapedBytes(s[3..], n - 1)
        case None => None
        case Some(tail) =>
          match Utf8Decode([lead] + tail)
          case None => None
          case Some(c) => Some((c, 3 * n))
  }

  /** `decodeURIComponent`; None is its URIError. */
  function PercentDecode(s: string): Option<string>
    decreases |s|
  {
    if s == [] then Some([])
    else if s[0] != '%' then
      match PercentDecode(s[1..])
      case None => None
      case Some(t) => Some([s[0]] + t)
    else
      match DecodeEscape(s)
      case None => None
      case Some((c, n)) =>
        match PercentDecode(s[n..])
        case None => None
        case Some(t) => Some([c] + t)
  }

  lemma Utf8RoundTrip(c: char)
    ensures Utf8Decode(Utf8Encode(c)) == Some(c)
  {
    var v := c as int;
    if v < 0x80 {
    } else if v < 0x800 {
      Utf8RoundTrip2(v);
    } else if v < 0x10000 {
      Utf8RoundTrip3(v);
    } else {
      Utf8RoundTrip4(v);
    }
  }

  lemma Utf8RoundTrip2(v: int)
    requires 0x80 <= v < 0x800
    ensures (0xC0 + v / 64 - 0xC0) * 64 + (0x80 + v % 64 - 0x80) == v
  {
  }

  lemma Utf8RoundTrip3(v: int)
    requires 0x800 <= v < 0x10000
    ensures (0xE0 + v / 4096 - 0xE0) * 4096 + (0x80 + v / 64 % 64 - 0x80) * 64 + (0x80 + v % 64 - 0x80) == v
  {
    assert v / 64 == (v / 4096) * 64 + v / 64 % 64;
  }

  lemma Utf8RoundTrip4(v: int)
    requires 0x10000 <= v < 0x110000
    ensures (0xF0 + v / 262144 - 0xF0) * 262144 + (0x80 + v / 4096 % 64 - 0x80) * 4096
      + (0x80 + v / 64 % 64 - 0x80) * 64 + (0x80 + v % 64 - 0x80) == v
  {
    assert v / 64 == (v / 4096) * 64 + v / 64 % 64;
    assert v / 4096 == (v / 262144) * 64 + v / 4096 % 64;
  }

  lemma EscapedByteOfEscape(b: Byte, rest: string)
    ensures EscapedByte(Escape(b) + rest) == Some(b)
  {
    var s := Escape(b) + rest;
    assert s[0] == '%' && s[1] == HexDigit(b / 16) && s[2] == HexDigit(b % 16);
  }

  lemma {:induction false} EscapedBytesOfEscapeAll(bs: seq<Byte>, rest: string)
    ensures EscapedBytes(EscapeAll(bs) + rest, |bs|) == Some(bs)
    decreases |bs|
  {
    if bs != [] {
      var s := EscapeAll(bs) + rest;
      assert s == Escape(bs[0]) + (EscapeAll(bs[1..]) + rest);
      EscapedByteOfEscape(bs[0], EscapeAll(bs[1..]) + rest);
      assert s[3..] == EscapeAll(bs[1..]) + rest;
      EscapedBytesOfEscapeAll(bs[1..], rest);
      assert [bs[0]] + bs[1..] == bs;
    }
  }

  /** Decoding the escapes written for one character gives that character back and stops right after them. */
  lemma DecodeEscapeOfEncodedChar(c: char, rest: string)
    requires !IsUnreserved(c)
    ensures DecodeEscape(EncodeChar(c) + rest) == Some((c, |EncodeChar(c)|))
  {
    var bs := Utf8Encode(c);
    var s := EscapeAll(bs) + rest;
    assert s == Escape(bs[0]) + (EscapeAll(bs[1..]) + rest);
    EscapedByteOfEscape(bs[0], EscapeAll(bs[1..]) + rest);
    assert s[3..] == EscapeAll(bs[1..]) + rest;
    EscapedBytesOfEscapeAll(bs[1..], rest);
    assert [bs[0]] + bs[1..] == bs;
    Utf8RoundTrip(c);
  }

  /** Decoding one encoded character in front of any text. */
  lemma DecodeEncodedChar(c: char, rest: string)
    ensures PercentDecode(EncodeChar(c) + rest) ==
      match PercentDecode(rest)
      case None => None
      case Some(t) => Some([c] + t)
  {
    var s := EncodeChar(c) + rest;
    if IsUnreserved(c) {
      assert s[0] == c && s[1..] == rest;
    } else {
      DecodeEscapeOfEncodedChar(c, rest);
      assert s[0] == '%';
      assert s[|EncodeChar(c)|..] == rest;
    }
  }

  /** `decodeURIComponent(encodeURIComponent(s)) === s`. */
  lemma {:induction false} PercentRoundTrip(s: string)
    ensures PercentDecode(PercentEncode(s)) == Some(s)
    decreases |s|
  {
    if s != [] {
      PercentRoundTrip(s[1..]);
      DecodeEncodedChar(s[0], PercentEncode(s[1..]));
      assert [s[0]] + s[1..] == s;
    }
  }

  /** Text without `%` decodes to itself. */
  lemma {:induction false} DecodeWithoutEscapes(s: string)
    requires forall i :: 0 <= i < |s| ==> s[i] != '%'
    ensures PercentDecode(s) == Some(s)
    decreases |s|
  {
    if s != [] {
      DecodeWithoutEscapes(s[1..]);
      assert [s[0]] + s[1..] == s;
    }
  }

  /** Each `%` in `s` starts an escape: two hexadecimal digits follow it. */
  predicate WellEscaped(s: string) {
    forall i :: 0 <= i < |s| && s[i] == '%' ==>
      i + 2 < |s| && HexValue(s[i + 1]).Some? && HexValue(s[i + 2]).Some?
  }

  lemma WellEscapedConcat(a: string, b: string)
    requires WellEscaped(a) && WellEscaped(b)
    ensures WellEscaped(a + b)
  {
    var s := a + b;
    forall i | 0 <= i < |s| && s[i] == '%'
      ensures i + 2 < |s| && HexValue(s[i + 1]).Some? && HexValue(s[i + 2]).Some?
    {
      if i < |a| {
        assert a[i] == '%';
        assert s[i + 1] == a[i + 1] && s[i + 2] == a[i + 2];
      } else {
        assert b[i - |a|] == '%';
        assert s[i + 1] == b[i - |a| + 1] && s[i + 2] == b[i - |a| + 2];
      }
    }
  }

  lemma {:induction false} EscapeAllWellEscaped(bs: seq<Byte>)
    ensures WellEscaped(EscapeAll(bs))
    decreases |bs|
  {
    if bs != [] {
      var e := Escape(bs[0]);
      assert e[1] != '%' && e[2] != '%';
      assert HexValue(e[1]).Some? && HexValue(e[2]).Some?;
      assert WellEscaped(e);
      EscapeAllWellEscaped(bs[1..]);
      WellEscapedConcat(e, EscapeAll(bs[1..]));
    }
  }

  /** Every `%` that `encodeURIComponent` writes begins a two-hexadecimal-digit escape. */
  lemma {:induction false} PercentEncodeWellEscaped(s: string)
    ensures WellEscaped(PercentEncode(s))
    decreases |s|
  {
    if s != [] {
      if IsUnreserved(s[0]) {
        assert WellEscaped(EncodeChar(s[0]));
      } else {
        EscapeAllWellEscaped(Utf8Encode(s[0]));
      }
      PercentEncodeWellEscaped(s[1..]);
      WellEscapedConcat(EncodeChar(s[0]), PercentEncode(s[1..]));
    }
  }

  /** `encodeURIComponent` copies unreserved characters as they are. */
  lemma {:induction false} UnreservedUnchanged(s: string)
    requires forall i :: 0 <= i < |s| ==> IsUnreserved(s[i])
    ensures PercentEncode(s) == s
    decreases |s|
  {
    if s != [] {
      assert IsUnreserved(s[0]);
      UnreservedUnchanged(s[1..]);
      assert [s[0]] + s[1..] == s;
    }
  }

  /** A continuation octet cannot start a sequence: decoding fails whatever follows. */
  lemma LoneContinuationFails(b: Byte, rest: string)
    requires IsContinuation(b)
    ensures PercentDecode(Escape(b) + rest) == None
  {
    EscapedByteOfEscape(b, rest);
    assert (Escape(b) + rest)[0] == '%';
  }

  /** The lead octets 0xC0 and 0xC1 only start overlong forms: decoding fails whatever follows. */
  lemma OverlongLeadFails(b: Byte, rest: string)
    requires b == 0xC0 || b == 0xC1
    ensures PercentDecode(Escape(b) + rest) == None
  {
    var s := Escape(b) + rest;
    EscapedByteOfEscape(b, rest);
    assert s[0] == '%';
    assert LeadingOnes(b) == 2;
    match EscapedBytes(s[3..], 1)
    case None =>
    case Some(tail) =>
      assert |tail| == 1;
      assert Utf8Decode([b] + tail) == None;
  }

  lemma {:induction false} EscapedBytesEndOnHex(s: string, count: nat)
    requires count > 0 && EscapedBytes(s, count).Some?
    ensures 3 * count <= |s| && HexValue(s[3 * count - 1]).Some?
    decreases count
  {
    assert EscapedByte(s).Some?;
    if count > 1 {
      EscapedBytesEndOnHex(s[3..], count - 1);
      assert s[3..][3 * (count - 1) - 1] == s[3 * count - 1];
    }
  }

  /** The escapes read for one character end on a hexadecimal digit. */
  lemma DecodeEscapeEndsOnHex(s: string)
    requires DecodeEscape(s).Some?
    ensures HexValue(s[DecodeEscape(s).value.1 - 1]).Some?
  {
    var lead := EscapedByte(s).value;
    var n := if lead < 0x80 then 1 else LeadingOnes(lead);
    assert DecodeEscape(s).value.1 == 3 * n;
    if n > 1 {
      EscapedBytesEndOnHex(s[3..], n - 1);
      assert s[3..][3 * (n - 1) - 1] == s[3 * n - 1];
    }
  }

  /** A `%` at the very end of the text is a truncated escape: decoding fails whatever precedes it. */
  lemma {:induction false} TrailingPercentFails(t: string)
    ensures PercentDecode(t + "%") == None
    decreases |t|
  {
    var s := t + "%";
    if t != [] {
      if t[0] != '%' {
        assert s[1..] == t[1..] + "%";
        TrailingPercentFails(t[1..]);
      } else {
        match DecodeEscape(s)
        case None =>
        case Some((c, n)) =>
          DecodeEscapeEndsOnHex(s);
          assert s[|s| - 1] == '%';
          assert n <= |t|;
          assert s[n..] == t[n..] + "%";
          TrailingPercentFails(t[n..]);
      }
    }
  }

  /** Four examples of a URIError: a bare `%`, a `%` with one digit, a lone continuation octet, an overlong form. */
  lemma BrokenEscapesFail()
    ensures PercentDecode("%") == None
    ensures PercentDecode("%4") == None
    ensures PercentDecode("%80") == None
    ensures PercentDecode("%C0%80") == None
  {
    assert HexValue('8') == Some(8) && HexValue('0') == Some(0) && HexValue('C') == Some(12);
    assert EscapedByte("%80") == Some(0x80);
    assert EscapedByte("%C0%80") == Some(0xC0);
    assert "%C0%80"[3..] == "%80" && "%80"[3..] == [];
    assert EscapedBytes([], 0) == Some([]);
    assert EscapedBytes("%80", 1) == Some([0x80] + []);
  }
}

=== FILE: server_http_test.dfy ===
/**
 * The scenario of the relay's HTTP test: a relay at `/api` and `/mock`, two
 * fixtures registered through the client, the listing, and two intercepted
 * calls answered from the store (plus one call that was never registered).
 */
module ServerHttpTest {
  import opened Wrappers
  import opened InsertionMap
  import opened Json
  import opened MockServer

  const TestConfig := Configuration("/api", "/mock")

  const TestClient := ClientConfiguration("http://localhost:4001")

  /** A member of an object payload; `null` when the payload has no such member. */
  function Member(v: Value, name: string): Value {
    match v
    case Obj(members) => (match Get(members, name) case Some(m) => m case None => Null)
    case _ => Null
  }

  /** The text of a string value as a template literal writes it (the test's payloads hold only strings there). */
  function Text(v: Value): string {
    match v
    case Str(s) => s
    case _ => ""
  }

  /** The test's payload key: `${payload.method} ${payload.path}`. */
  function PayloadKey(payload: Value): string {
    Text(Member(payload, "method")) + " " + Text(Member(payload, "path"))
  }

  /** The test's fixture value: `payload.body`. */
  function PayloadBody(payload: Value): Value {
    Member(payload, "body")
  }

  /** A `RequestMock` payload of the test. */
  function RequestMock(path: string, verb: string, body: Value): Value {
    Obj([("path", Str(path)), ("method", Str(verb)), ("body", body)])
  }

  const Foo := Obj([("foo", Str("foo"))])

  const Bar := Obj([("bar", Str("bar"))])

  /** The key the test derives for an intercepted call: `${req.method} ${path}`, for a GET and for a POST. */
  function GetRequestKey(path: string): string {
    "GET " + path
  }

  function PostRequestKey(path: string): string {
    "POST " + path
  }

  const Mock1 := RequestMock("/some/url", "GET", Foo)

  const Mock2 := RequestMock("/some/other/url", "POST", Bar)

  lemma RequestMockWellFormed(path: string, verb: string, body: Value)
    requires WellFormed(body)
    ensures WellFormed(RequestMock(path, verb, body))
  {
    var ms := [("path", Str(path)), ("method", Str(verb)), ("body", body)];
    assert UniqueKeys(ms) by {
      forall i, j | 0 <= i < j < |ms| ensures ms[i].0 != ms[j].0 {
        assert ms[0].0 == "path" && ms[1].0 == "method" && ms[2].0 == "body";
        assert "path"[1] != "method"[1] && "path"[0] != "body"[0] && "method"[0] != "body"[0];
      }
    }
  }

  /** The members of a test payload are found under their names. */
  lemma RequestMockMembers(path: string, verb: string, body: Value)
    ensures Member(RequestMock(path, verb, body), "path") == Str(path)
    ensures Member(RequestMock(path, verb, body), "method") == Str(verb)
    ensures Member(RequestMock(path, verb, body), "body") == body
  {
    var ms := [("path", Str(path)), ("method", Str(verb)), ("body", body)];
    assert "path"[0] != "method"[0] && "path"[0] != "body"[0] && "method"[0] != "body"[0];
    var ms1, ms2 := [("method", Str(verb)), ("body", body)], [("body", body)];
    assert ms[1..] == ms1 && ms1[1..] == ms2;
    assert Get(ms, "method") == Get(ms1, "method") == Some(Str(verb));
    assert Get(ms, "body") == Get(ms1, "body") == Get(ms2, "body") == Some(body);
  }

  lemma BodiesWellFormed()
    ensures WellFormed(Foo) && WellFormed(Bar)
  {
    assert UniqueKeys(Foo.members) && UniqueKeys(Bar.members);
  }

  /** The first payload of the test is well formed and registers `{foo: "foo"}` under `GET /some/url`. */
  lemma FirstPayload()
    ensures WellFormed(Mock1)
    ensures PayloadKey(Mock1) == "GET /some/url" && PayloadBody(Mock1) == Foo
  {
    BodiesWellFormed();
    RequestMockWellFormed("/some/url", "GET", Foo);
    PayloadKeyOf("/some/url", "GET", Foo);
  }

  /** The second payload of the test is well formed and registers `{bar: "bar"}` under `POST /some/other/url`. */
  lemma SecondPayload()
    ensures WellFormed(Mock2)
    ensures PayloadKey(Mock2) == "POST /some/other/url" && PayloadBody(Mock2) == Bar
  {
    BodiesWellFormed();
    RequestMockWellFormed("/some/other/url", "POST", Bar);
    PayloadKeyOf("/some/other/url", "POST", Bar);
  }

  lemma PayloadKeyOf(path: string, verb: string, body: Value)
    ensures PayloadKey(RequestMock(path, verb, body)) == verb + " " + path
    ensures PayloadBody(RequestMock(path, verb, body)) == body
  {
    RequestMockMembers(path, verb, body);
  }

  /** The store after the two registrations, in registration order. */
  lemma TestStore()
    ensures Put(Put([], "GET /some/url", Foo), "POST /some/other/url", Bar)
         == [("GET /some/url", Foo), ("POST /some/other/url", Bar)]
  {
    assert Put([], "GET /some/url", Foo) == [("GET /some/url", Foo)];
    assert "POST /some/other/url" !in Keys([("GET /some/url", Foo)]);
    PutNewKey([("GET /some/url", Foo)], "POST /some/other/url", Bar);
  }

  /** The three intercepted calls of the test, answered from that store. */
  lemma TestLookups()
    ensures var store := [("GET /some/url", Foo), ("POST /some/other/url", Bar)];
      && ResolveReal(TestConfig, store, "/api/some/url", GetRequestKey) == Some(Foo)
      && ResolveReal(TestConfig, store, "/api/some/other/url", PostRequestKey) == Some(Bar)
      && ResolveReal(TestConfig, store, "/api/some/other/url", GetRequestKey) == None
  {
    assert Slice("/api/some/url", 4) == "/some/url";
    assert Slice("/api/some/other/url", 4) == "/some/other/url";
    assert GetRequestKey("/some/url") == "GET /some/url";
    assert PostRequestKey("/some/other/url") == "POST /some/other/url";
    assert GetRequestKey("/some/other/url") != "GET /some/url" by {
      assert |GetRequestKey("/some/other/url")| != |"GET /some/url"|;
    }
    assert GetRequestKey("/some/other/url") != "POST /some/other/url" by {
      assert GetRequestKey("/some/other/url")[0] != "POST /some/other/url"[0];
    }
    assert PostRequestKey("/some/other/url") != "GET /some/url" by {
      assert PostRequestKey("/some/other/url")[0] != "GET /some/url"[0];
    }
    var store := [("GET /some/url", Foo), ("POST /some/other/url", Bar)];
    assert store[1..] == [("POST /some/other/url", Bar)];
    assert Get(store, "POST /some/other/url") == Get(store[1..], "POST /some/other/url") == Some(Bar);
  }

  /**
   * Two `set` calls, then `getAll()` lists both fixtures in registration order;
   * `GET /api/some/url` gets the first fixture, `POST /api/some/other/url` the
   * second, and `GET /api/some/other/url`, never registered, gets nothing.
   */
  method HttpScenario(json: Host) returns (all: MockReply, get: Option<Value>, post: Option<Value>,
                                           missing: Option<Value>)
    requires RoundTrips(json)
    ensures all == Snapshot(Obj([("GET /some/url", Foo), ("POST /some/other/url", Bar)]))
    ensures get == Some(Foo)
    ensures post == Some(Bar)
    ensures missing == None
  {
    FirstPayload();
    SecondPayload();
    TestStore();
    TestLookups();
    var server := new Server(TestConfig, json);

    SetRequestStoresFixture(TestConfig, TestClient, json, server.store, Mock1, PayloadKey, PayloadBody);
    var _ := server.ResolveMockApiRequest(ServerUrl(TestClient, ClientSet(TestConfig, TestClient, json, Mock1)),
                                          PayloadKey, PayloadBody);

    SetRequestStoresFixture(TestConfig, TestClient, json, server.store, Mock2, PayloadKey, PayloadBody);
    var _ := server.ResolveMockApiRequest(ServerUrl(TestClient, ClientSet(TestConfig, TestClient, json, Mock2)),
                                          PayloadKey, PayloadBody);

    all := server.ResolveMockApiRequest(ServerUrl(TestClient, ClientGetAll(TestConfig, TestClient)),
                                        PayloadKey, PayloadBody);

    get := server.ResolveRealApiRequest("/api/some/url", GetRequestKey);
    post := server.ResolveRealApiRequest("/api/some/other/url", PostRequestKey);
    missing := server.ResolveRealApiRequest("/api/some/other/url", GetRequestKey);
  }
}

=== FILE: wrappers.dfy ===
/** Optional values and results with an error, for the host operations that can fail or find nothing. */
module Wrappers {

  datatype Option<+T> = None | Some(value: T)

  datatype Result<+R, +E> = Success(value: R) | Failure(error: E)
}
